=== FILE: README.md ===
# Center synchronizer of angular-leaflet-directive, in Dafny

This project models the `lfCenter` directive (`src/directives/center.js`). The
directive keeps the scope's `center` record and a Leaflet map's viewport in
step in both directions. It uses two guard flags so that a write from one side
is not echoed back by the other. It can centre the map by geolocation
(`autoDiscover`), and it can take the centre from the `c=lat:lng:zoom` URL
search parameter (`allowUrlHashCenter`).

The model is functional. Every listener the link function registers is a pure
step function from a `State` to an `Outcome`. The outcome holds the new state
and the commands issued: `SetView`, `FitBounds`, `Locate`, `NotifyBounds`,
`NotifyUrlHash`, `ResolveReady`, `ScheduleTick` and log lines. The step
functions are:

- the deep `center` watch (`Projector`);
- `moveend`, `whenReady` and the `$timeout` callbacks (`Reflector`);
- `locationerror` and the locate request (`AutoLocate`);
- `$locationChangeSuccess` and the URL parser (`UrlHash`).

`Linking.Link` is the link function. It either gives up or builds the first
state. `Synchronizer` dispatches events and runs traces. `Traces` proves
properties of short event sequences.

Code that the directive calls but that is not part of this model is passed in
through an `Env` value of total functions:

- `leafletHelpers.isValidCenter` and `isSameCenterOnMap`;
- `leafletBoundsHelpers.isValidBounds`;
- `parseFloat` and `parseInt`.

Lemmas that depend on how one of these behaves state it as a precondition.
JavaScript values are the `Js` datatype. `angular.isNumber` counts NaN as a
number, and the model keeps that.

Modules and files:

| file | module | contents |
|---|---|---|
| js_values.dfy | JsValues | `Js`, `Option`, `isDefined`, `isNumber`, `=== true` |
| center_state.dfy | CenterState | centre, view, defaults, `Env`, commands, state, command counting |
| url_hash.dfy | UrlHash | `split`/`join` on ':', `extractCenterFromUrl`, `$locationChangeSuccess` |
| auto_locate.dfy | AutoLocate | locate options, `locationerror` fallback |
| projector.dfy | Projector | the `center` watch |
| reflector.dfy | Reflector | `moveend`, `whenReady`, `$timeout` ticks |
| linking.dfy | Linking | link-time branch selection, initial state |
| synchronizer.dfy | Synchronizer | event dispatch, traces, pending-tick invariant |
| traces.dfy | Traces | echo suppression, one move per centre, one ready resolution, URL precedence |

## Model

| member | source | states |
|---|---|---|
| UrlHash.Split | src/directives/center.js:82 | `split(':')` yields one more field than the string has ':' characters, and no field contains ':' |
| UrlHash.JoinSplit | src/directives/center.js:82 | joining the fields of a split with ':' gives back the parameter value |
| UrlHash.SplitJoin | src/directives/center.js:82 | splitting a ':'-join of colon-free fields gives back exactly those fields |
| UrlHash.ExtractCenterFromUrl | src/directives/center.js:78-94 | a centre exists iff `c` is present and holds exactly two ':' (three fields); lat and lng are parsed as floats and zoom as a base-10 integer from those fields; `allowUrlHashCenter` is copied from the model; `autoDiscover` is absent |
| UrlHash.UrlRoundTrip | src/directives/center.js:78-94 | a parameter written as `lat:lng:zoom` from colon-free fields is read back as exactly those three fields |
| UrlHash.OnLocationChangeSuccess | src/directives/center.js:98-110 | emits nothing; without the bridge nothing changes; with the bridge, a URL centre the map does not show is written into the model's lat, lng and zoom; the model changes in no other case and in no other way, so `autoDiscover` and `allowUrlHashCenter` are kept |
| AutoLocate.LocateMaxZoom | src/directives/center.js:136-150 | `maxZoom` priority: the model's zoom when it is a number above the default zoom, else the configured `maxZoom` when defined, else no option |
| AutoLocate.LocateCommands | src/directives/center.js:131-153 | exactly one `Locate` with `setView` true, issued last; a default-centre `SetView` comes first iff the zoom is not a number; nothing else is emitted (one command, or two when the zoom is not a number) |
| AutoLocate.OnLocationError | src/directives/center.js:201-211 | without the listener nothing is emitted; otherwise a warning, then exactly one `SetView`, to the model's centre if valid and to the default centre otherwise, then exactly one `NotifyBounds`; the state is untouched |
| Projector.Classify | src/directives/center.js:124-131 | a centre is auto-discovering iff `autoDiscover === true`; it is moved to iff valid and not auto-discovering; otherwise it is rejected |
| Projector.React | src/directives/center.js:124-164 | invalid and not auto-discovering: exactly one warning, state unchanged; auto-discovering: the locate commands only, guards unchanged; valid: nothing when the ready map already shows it, else `SetView` of the centre, `NotifyBounds` and a scheduled tick, with `settingCenterFromScope` raised |
| Projector.OnCenterChange | src/directives/center.js:113-122 | while `settingCenterFromLeaflet` is up, nothing is emitted and the state, including a pending URL centre, is unchanged; otherwise no URL centre is left pending afterwards, the model becomes the pending URL centre when there was one and stays as it was otherwise, and the reaction is to that centre |
| Reflector.WritesBack | src/directives/center.js:179-181 | a `moveend` writes back exactly when the model does not already show the map's position and `settingCenterFromScope` is down |
| Reflector.Reflect | src/directives/center.js:186-191 | the model after write-back holds the view's lat, lng and zoom and `autoDiscover` false, and keeps `allowUrlHashCenter` |
| Reflector.Announce | src/directives/center.js:172-177 | `ResolveReady` is emitted only while the ready signal is unresolved; `NotifyUrlHash` is emitted iff `allowUrlHashCenter === true`; each at most once, and nothing else is emitted |
| Reflector.OnMoveEnd | src/directives/center.js:171-199 | the ready signal ends resolved and only its first resolution is emitted; `NotifyUrlHash` iff `allowUrlHashCenter === true`; never moves the map; every command is a ready resolution, a URL or bounds notification, or the leaflet tick; when the model already shows the view or `settingCenterFromScope` is up, only the announcements are emitted and the model and the leaflet guard are untouched; otherwise the view is copied into the model under the leaflet guard, and the announcements are followed by exactly one `NotifyBounds` and one leaflet tick |
| Reflector.WriteBack | src/directives/center.js:183-198 | the write-back raises `settingCenterFromLeaflet`, copies the view into the model, emits the announcements, then exactly one `NotifyBounds`, then the one tick that lowers the guard |
| Reflector.OnWhenReady | src/directives/center.js:167-169 | the map becomes ready; nothing is emitted and nothing else changes |
| Reflector.OnTick | src/directives/center.js:162-197 | either `$timeout` callback, the scope one at lines 162-164 or the leaflet one at lines 195-197, lowers exactly the guard it was scheduled for; the other guard and all else are unchanged |
| Linking.DefaultCenter | src/directives/center.js:72 | copying the defaults leaves their lat, lng and zoom and removes `autoDiscover` and `allowUrlHashCenter` |
| Linking.Install | src/directives/center.js:75-111 | the first state has both guards down, the map not ready and the ready signal pending; the URL bridge exists iff `allowUrlHashCenter === true`, with the URL's centre pending; the locate fallback exists iff `autoDiscover === true` |
| Linking.Link | src/directives/center.js:30-111 | a missing centre is logged first; link time issues only log lines, the default view and the fit to the scope's bounds; each error is logged once, and only when its condition holds; nothing is installed iff the key holds '-', and the key error is logged iff it does, with the map sent to the default centre; with valid bounds and an empty centre the map is fitted and the model filled from it with `autoDiscover` false, and neither the URL bridge nor the locate fallback is installed; a model lacking both a lat/lng pair and `autoDiscover` takes the defaults; any other model is kept; an installed synchronizer always starts with explicit coordinates or an `autoDiscover` flag, and its pending URL centre is the one read from the search parameters when the URL bridge is installed and none otherwise |
| Linking.LinkCommands | src/directives/center.js:30-44 | the missing-centre error comes first iff the centre is undefined; the key error is logged iff the key holds '-', with the map sent to the default view, which is the only `SetView`; exactly one log line per failed condition; a `FitBounds` is issued, last, iff the map starts from the bounds; nothing else is issued |
| Linking.ShouldInitializeMapWithBounds | src/directives/center.js:10-12 | the map starts from the bounds exactly when bounds are given and valid and the centre has no key set |
| Linking.BoundsOnlyForEmptyCenter | src/directives/center.js:10-12 | the map is fitted to the bounds iff the key is usable, the bounds are valid and the scope's centre is undefined or empty |
| Synchronizer.Step | src/directives/center.js:113-211 | no handler lowers a guard except the tick for it; a guard is raised only together with its tick; only `moveend` resolves the ready signal, and only the first one emits `ResolveReady`; listeners never change; a consumed URL centre never returns |
| Synchronizer.Run | src/directives/center.js:159-164 | over any trace, a guard that is up stays up until a tick for it is delivered; readiness and the ready signal are never lost; listeners never change |
| Synchronizer.DeliverKeepsGuardsCovered | src/directives/center.js:159-197 | with the scheduler holding the pending ticks, every guard that is up always has a tick waiting that will lower it |
| Traces.EchoIgnoredWhileLeafletGuard | src/directives/center.js:113-116 | while `settingCenterFromLeaflet` is up, any number of watch firings emit nothing and change nothing |
| Traces.MovesNotWrittenBackWhileScopeGuard | src/directives/center.js:179-181 | while `settingCenterFromScope` is up, any number of `moveend`s leave the model and the leaflet guard alone and emit no `SetView` or `NotifyBounds` |
| Traces.ReadyResolvedOnce | src/directives/center.js:171-173 | over any trace the ready signal is resolved exactly once if the trace has a `moveend` and it was pending, otherwise never |
| Traces.ModelMoveNotEchoed | src/directives/center.js:155-181 | a model-driven move emits one `SetView`, and its `moveend` arriving before the tick writes nothing back: the model keeps its values |
| Traces.SameCentreTwiceMovesOnce | src/directives/center.js:155-157 | on a ready map, the same centre applied twice with the map resting on it in between moves the map at most once, and the guards end down |
| Traces.SettledCentreIsSilent | src/directives/center.js:155-157 | when the ready map already shows the model's valid centre, a watch firing emits nothing and changes nothing |
| Traces.MapMoveNotEchoed | src/directives/center.js:183-198 | a move made on the map is written into the model once; the watch it triggers is suppressed and keeps a pending URL centre; the tick then lowers the guard |
| Traces.UrlNavigationMovesMap | src/directives/center.js:98-164 | navigating to a URL whose `c` holds a valid centre the map does not show writes that centre into the model, and the next watch firing moves the map to it with `NotifyBounds` and a scheduled tick, under the scope guard |
| Traces.UrlCentreWinsFirstWatch | src/directives/center.js:118-122 | with URL centring allowed and a well-formed `c`, the first watch moves the map to the URL's centre, not the model's, and the URL centre is spent |
| Traces.UrlPrecedenceExample | src/directives/center.js:78-122 | `c=12.5:45.25:7` over a model at (0, 0) makes the first move go to (12.5, 45.25) at zoom 7 |
| Traces.AutoDiscoverFallsBackToDefault | src/directives/center.js:131-211 | an auto-discovering model with no zoom and no valid centre shows the default centre, asks for the location, and on failure settles on the default centre again |

## Left out

- Angular plumbing is not modelled: dependency injection, `$q`, `$on` registration and `$location`. The `getCenter()` promise is the `readyResolved` bit.
- `$timeout` is not modelled as real scheduling. Each callback is a `Tick(guard)` event. `Pending` and `Deliverable` say that only scheduled ticks run.
- `safeApply` is taken to run its callback at once. Under that reading, the re-check of `settingCenterFromScope` at line 185 always passes, so the model has no branch for it.
- The Leaflet map itself is not modelled. The view changes only through a `MoveEnd(view)` event, and that includes the move that follows a successful locate. The geometry of `fitBounds` is the `fitted` view given to `Link`.
- The copy of the map's bounds into `scope.bounds` (lines 54-66) is not modelled.
- `isDefined` and `isNumber` (lines 2-3) come from `leafletHelpers`, whose code is not part of this model. They are read as `angular.isDefined`, which is true for anything but `undefined`, including `null`, and `angular.isNumber`, which is true for any number, NaN included. If the helper's `isDefined` also rejects `null`, three things change:
  - a `null` centre takes the `{}` path at lines 30-33;
  - a centre whose lat and lng are `null` takes the defaults at line 71, where the model keeps it;
  - a `null` `defaults.maxZoom` gives no `maxZoom` at line 141, where the model passes `Some(Null)`.
- Linking.Link: a `null` scope centre is not modelled, because `scopeCenter` is `None` only when the centre is undefined. Under the `angular.isDefined` reading above, lines 30-33 keep the null. When the bounds branch is not taken, reading `centerModel.lat` at line 71 then throws and the link callback stops: no listener is registered, nothing is logged and the map is not moved. Writing into a null centre on the bounds branch is not modelled either.
- The branch at lines 67-70 (centre not defined) has no counterpart in the model. It cannot be reached, because lines 30-33 always define the centre.
- The helpers `isValidCenter`, `isSameCenterOnMap` and `isValidBounds` are not modelled; they are `Env` functions. Their code is not part of this model.
- `isUndefinedOrEmpty` is read as "none of the five keys is set". Other keys of the centre record are not modelled.
- `parseFloat` and `parseInt` are not modelled; they are `Env` functions. Floating-point details are not modelled either: Infinity, -0 and rounding.
- Search values that are not strings are not modelled. `$location.search()` gives `true` for a bare `?c` and an array for a repeated `c`, and calling `split` on those throws.
- Log message text is not modelled. Log calls are `LogError` and `LogWarn` commands with a tag.
- The process-wide `_leafletCenter` deferred is not modelled. A second directive instance would replace the first instance's deferred, and that sharing is not captured.
- Replacing the scope's `center` object after link is not modelled. The watch, `moveend` and `locationerror` are assumed to see the same record.
- Angular's deep dirty-checking is not modelled. A `CenterWatch` event may be delivered at any point, and when Angular would really fire it is left to the caller.
- Stale geolocation results are not modelled separately. A `MoveEnd` after a locate is accepted whatever the model holds by then, as in the source.

## Notes on the code

Behaviours of `center.js` a reader may not expect:

- A model-driven move whose `moveend` arrives while the scope guard is up leaves the model exactly as it was. The skip path does not write `autoDiscover: false`.
- On `$locationChangeSuccess`, the URL's centre is written straight into the model's lat, lng and zoom. It is not queued as a pending URL centre. Only link time fills `urlCenterHash`.
- The `locationerror` fallback looks at the model as it is when the error arrives.
- Copying the defaults at line 72 replaces the whole record. A model such as `{allowUrlHashCenter: true}` therefore loses the flag, and no URL bridge is installed.
- One tick lowers a guard even when a later write raised it again. Two quick model-driven moves can therefore lower the scope guard while the second move is still settling. `Run` only promises that a guard stays up until some tick for it runs.

=== FILE: auto_locate.dfy ===
/** Geolocation centring: the locate request the `center` watch issues when
    the model asks for auto-discovery, and the `locationerror` fallback. */
module AutoLocate {
  import opened JsValues
  import opened CenterState

  /** The model's zoom takes precedence only when it is a number above the
      default zoom. */
  predicate ModelZoomWins(d: Defaults, c: Center) {
    IsNumber(c.zoom) && Exceeds(c.zoom, d.center.zoom)
  }

  /** The `maxZoom` option of the locate request, by priority: the model's
      zoom, else the configured `maxZoom`, else no option at all. */
  function LocateMaxZoom(d: Defaults, c: Center): (m: Option<Js>)
    ensures ModelZoomWins(d, c) ==> m == Some(c.zoom)
    ensures m.Some? && !ModelZoomWins(d, c) ==> m.value == d.maxZoom
    ensures m.None? <==> !ModelZoomWins(d, c) && !IsDefined(d.maxZoom)
    ensures m.Some? ==> IsDefined(m.value)
  {
    if ModelZoomWins(d, c) then Some(c.zoom)
    else if IsDefined(d.maxZoom) then Some(d.maxZoom)
    else None
  }

  /** The commands for an auto-discovering model: a move to the default
      centre when the model has no numeric zoom, then one locate request that
      lets the map set its own view. The model's own lat/lng are never used. */
  function LocateCommands(d: Defaults, c: Center): (cmds: seq<Command>)
    ensures Count(cmds, IsResolveReady) == 0
    ensures |cmds| == (if IsNumber(c.zoom) then 1 else 2)
    ensures |cmds| >= 1 && cmds[|cmds| - 1] == Locate(true, LocateMaxZoom(d, c))
    ensures Count(cmds, IsLocate) == 1
    ensures Count(cmds, IsSetView) == (if IsNumber(c.zoom) then 0 else 1)
    ensures !IsNumber(c.zoom) ==> cmds[0] == DefaultView(d)
    ensures forall i | 0 <= i < |cmds| :: cmds[i].SetView? ==> cmds[i] == DefaultView(d)
  {
    var locate := Locate(true, LocateMaxZoom(d, c));
    if IsNumber(c.zoom) then [locate] else [DefaultView(d), locate]
  }

  /** The `locationerror` listener, which exists only when the model was
      auto-discovering at link time: a warning, one move to the model's centre
      if it is valid and to the default centre otherwise, then one bounds
      notification. The state is not touched. */
  function OnLocationError(env: Env, s: State): (o: Outcome)
    ensures Count(o.cmds, IsResolveReady) == 0
    ensures o.state == s
    ensures !s.locateFallback ==> o.cmds == []
    ensures s.locateFallback ==>
      && |o.cmds| == 3
      && o.cmds[0] == LogWarn(GeolocationUnauthorized)
      && o.cmds[1] == (if env.isValidCenter(s.center) then MoveTo(s.center) else DefaultView(env.defaults))
      && o.cmds[2] == NotifyBounds
      && Count(o.cmds, IsSetView) == 1
      && Count(o.cmds, IsNotifyBounds) == 1
  {
    if !s.locateFallback then Outcome(s, [])
    else
      var fallback := if env.isValidCenter(s.center) then MoveTo(s.center) else DefaultView(env.defaults);
      Outcome(s, [LogWarn(GeolocationUnauthorized), fallback, NotifyBounds])
  }
}

=== FILE: center_state.dfy ===
/** The state the center directive keeps, the collaborators it consults and
    the commands it issues to the map, the bounds peer and the logger. */
module CenterState {
  import opened JsValues

  /** The scope's `center` record. A key that is absent reads as `Undefined`. */
  datatype Center = Center(lat: Js, lng: Js, zoom: Js, autoDiscover: Js, allowUrlHashCenter: Js)

  /** The empty object `{}`. */
  const Empty := Center(Undefined, Undefined, Undefined, Undefined, Undefined)

  /** What the map shows: `map.getCenter()` and `map.getZoom()`. */
  datatype View = View(lat: real, lng: real, zoom: real)

  /** The scope's `bounds` record, as passed to `fitBounds`. */
  datatype Bounds = Bounds(northEast: View, southWest: View)

  /** The part of `leafletMapDefaults.getDefaults(id)` the directive reads. */
  datatype Defaults = Defaults(center: View, maxZoom: Js)

  /** Collaborators whose code is not part of this model, passed in as total
      functions: the leafletHelpers predicates, `isValidBounds`, and the two
      number parsers (`None` stands for NaN). */
  datatype Env = Env(
    defaults: Defaults,
    isValidCenter: Center -> bool,
    isSameCenterOnMap: (Center, View) -> bool,
    isValidBounds: Bounds -> bool,
    parseFloat: string -> Option<real>,
    parseInt: string -> Option<int>)

  /** The two guard flags; each `$timeout` callback clears exactly one. */
  datatype Guard = FromScope | FromLeaflet

  datatype LogMessage = CenterUndefined | DashInKeyName | InvalidCenter | GeolocationUnauthorized

  /** Everything the directive does to the outside world. `Locate` carries the
      options object: `setView` and an optional `maxZoom`. */
  datatype Command =
    | SetView(lat: Js, lng: Js, zoom: Js)
    | FitBounds(bounds: Bounds)
    | Locate(setView: bool, maxZoom: Option<Js>)
    | NotifyBounds
    | NotifyUrlHash
    | ResolveReady
    | ScheduleTick(guard: Guard)
    | LogError(error: LogMessage)
    | LogWarn(warning: LogMessage)

  /** The synchronizer's state once the link function has run. */
  datatype State = State(
    center: Center,
    view: View,
    settingFromScope: bool,      // leafletScope.settingCenterFromScope
    settingFromLeaflet: bool,    // leafletScope.settingCenterFromLeaflet
    mapReady: bool,              // set by map.whenReady
    urlCenterHash: Option<Center>,
    readyResolved: bool,         // the getCenter() promise is resolved
    urlBridge: bool,             // a $locationChangeSuccess listener exists
    locateFallback: bool)        // a locationerror listener exists

  /** The result of handling one event. */
  datatype Outcome = Outcome(state: State, cmds: seq<Command>)

  /** What every handler respects: the listeners stay as registered, a
      ready map stays ready, a consumed URL centre never comes back, and a
      guard is raised only together with the tick that will lower it. */
  predicate Disciplined(s: State, o: Outcome) {
    && o.state.urlBridge == s.urlBridge
    && o.state.locateFallback == s.locateFallback
    && (s.mapReady ==> o.state.mapReady)
    && (o.state.urlCenterHash.Some? ==> o.state.urlCenterHash == s.urlCenterHash)
    && (!s.settingFromScope && o.state.settingFromScope ==> ScheduleTick(FromScope) in o.cmds)
    && (!s.settingFromLeaflet && o.state.settingFromLeaflet ==> ScheduleTick(FromLeaflet) in o.cmds)
  }

  /** `map.setView([c.lat, c.lng], c.zoom)`. */
  function MoveTo(c: Center): Command {
    SetView(c.lat, c.lng, c.zoom)
  }

  /** `map.setView` to the configured default centre. */
  function DefaultView(d: Defaults): Command {
    SetView(Num(d.center.lat), Num(d.center.lng), Num(d.center.zoom))
  }

  predicate IsSetView(c: Command) { c.SetView? }
  predicate IsLocate(c: Command) { c.Locate? }
  predicate IsNotifyBounds(c: Command) { c.NotifyBounds? }
  predicate IsResolveReady(c: Command) { c.ResolveReady? }
  predicate IsLogError(c: Command) { c.LogError? }

  /** The number of commands satisfying `p`. */
  function Count(cmds: seq<Command>, p: Command -> bool): (n: nat)
    ensures n <= |cmds|
    ensures n == 0 <==> forall i | 0 <= i < |cmds| :: !p(cmds[i])
  {
    if |cmds| == 0 then 0
    else (if p(cmds[0]) then 1 else 0) + Count(cmds[1..], p)
  }

  /** Counting distributes over concatenation. */
  lemma {:induction false} CountAppend(a: seq<Command>, b: seq<Command>, p: Command -> bool)
    ensures Count(a + b, p) == Count(a, p) + Count(b, p)
    decreases |a|
  {
    if |a| == 0 {
      assert a + b == b;
    } else {
      assert (a + b)[1..] == a[1..] + b;
      CountAppend(a[1..], b, p);
    }
  }
}

=== FILE: js_values.dfy ===
/** JavaScript values as the center directive inspects them, and the few
    angular predicates it applies to them. */
module JsValues {

  datatype Option<+T> = None | Some(value: T)

  /** A JavaScript value. Numbers are reals; NaN is kept apart because
      `parseFloat` and `parseInt` produce it and it is still of type number. */
  datatype Js = Undefined | Null | Num(x: real) | NaN | Bool(b: bool) | Str(s: string)

  /** `angular.isDefined`: anything but `undefined` (so `null` is defined). */
  predicate IsDefined(v: Js) {
    !v.Undefined?
  }

  /** `angular.isNumber`: `typeof v === 'number'`, which includes NaN. */
  predicate IsNumber(v: Js) {
    v.Num? || v.NaN?
  }

  /** `v === true`: only the boolean true, no truthiness. */
  predicate IsTrue(v: Js) {
    v == Bool(true)
  }

  /** `v > bound` for a value already known to be a number: false for NaN. */
  predicate Exceeds(v: Js, bound: real)
    requires IsNumber(v)
  {
    v.Num? && v.x > bound
  }

  /** The number `parseFloat` yields: the value it read, or NaN when it read none. */
  function FloatResult(p: Option<real>): (v: Js)
    ensures IsNumber(v)
    ensures v.Num? <==> p.Some?
    ensures p.Some? ==> v.x == p.value
  {
    if p.Some? then Num(p.value) else NaN
  }

  /** The number `parseInt(_, 10)` yields: an integral value, or NaN. */
  function IntResult(p: Option<int>): (v: Js)
    ensures IsNumber(v)
    ensures v.Num? <==> p.Some?
    ensures p.Some? ==> v.x == p.value as real
  {
    if p.Some? then Num(p.value as real) else NaN
  }
}

=== FILE: linking.dfy ===
/** Link time: what the directive does once the map exists, before any event
    arrives. It either gives up (a '-' in the attribute's key) or installs the
    synchronizer with an initial state. */
module Linking {
  import opened JsValues
  import opened CenterState
  import opened UrlHash

  /** The result of linking: the synchronizer's initial state when its
      listeners were registered, and the commands issued meanwhile. */
  datatype Linked = Linked(sync: Option<State>, cmds: seq<Command>)

  /** `isUndefinedOrEmpty` on the center record: no key is set. */
  predicate IsUndefinedOrEmpty(c: Center) {
    c == Empty
  }

  /** `shouldInitializeMapWithBounds`: valid scope bounds and a centre with
      nothing in it. */
  predicate ShouldInitializeMapWithBounds(env: Env, bounds: Option<Bounds>, c: Center) {
    bounds.Some? && env.isValidBounds(bounds.value) && IsUndefinedOrEmpty(c)
  }

  /** `angular.copy(defaults.center, centerModel)`: the defaults replace every key. */
  function DefaultCenter(d: Defaults): (c: Center)
    ensures c.lat == Num(d.center.lat) && c.lng == Num(d.center.lng) && c.zoom == Num(d.center.zoom)
    ensures !IsDefined(c.autoDiscover) && !IsDefined(c.allowUrlHashCenter)
  {
    Center(Num(d.center.lat), Num(d.center.lng), Num(d.center.zoom), Undefined, Undefined)
  }

  /** The synchronizer's first state for a settled model `c` and a map
      showing `view`: both guards down, map not ready, ready signal pending,
      the URL bridge installed (with the URL's centre pending) only when the
      model allows URL centring, the locate fallback only when it
      auto-discovers. */
  function Install(env: Env, c: Center, view: View, search: map<string, string>): (s: State)
    ensures s.center == c && s.view == view
    ensures !s.settingFromScope && !s.settingFromLeaflet && !s.mapReady && !s.readyResolved
    ensures s.urlBridge <==> IsTrue(c.allowUrlHashCenter)
    ensures s.locateFallback <==> IsTrue(c.autoDiscover)
    ensures s.urlCenterHash == (if s.urlBridge then ExtractCenterFromUrl(env, search, c.allowUrlHashCenter) else None)
  {
    var bridge := IsTrue(c.allowUrlHashCenter);
    State(
      center := c,
      view := view,
      settingFromScope := false,
      settingFromLeaflet := false,
      mapReady := false,
      urlCenterHash := if bridge then ExtractCenterFromUrl(env, search, c.allowUrlHashCenter) else None,
      readyResolved := false,
      urlBridge := bridge,
      locateFallback := IsTrue(c.autoDiscover))
  }

  /** The link function once the map is available. `key` is the attribute's
      value, `scopeCenter` the scope's `center` (`None` when undefined),
      `view` what the map shows, and `fitted` what it shows after
      `fitBounds`. A missing centre is logged and replaced by `{}`. A '-' in
      the key falls back to the default view and installs nothing. Valid
      bounds with an empty centre fit the map to the bounds and fill the model
      from the map; a model with neither a lat/lng pair nor an auto-discovery
      flag takes the defaults; any other model is kept as it is. */
  function Link(env: Env, key: string, bounds: Option<Bounds>, scopeCenter: Option<Center>,
                search: map<string, string>, view: View, fitted: View): (l: Linked)
    ensures l.sync.None? <==> '-' in key
    ensures scopeCenter.None? <==> |l.cmds| >= 1 && l.cmds[0] == LogError(CenterUndefined)
    ensures '-' in key <==> LogError(DashInKeyName) in l.cmds
    ensures Count(l.cmds, IsLogError) == (if scopeCenter.None? then 1 else 0) + (if '-' in key then 1 else 0)
    ensures forall i | 0 <= i < |l.cmds| ::
      || l.cmds[i].LogError?
      || l.cmds[i] == DefaultView(env.defaults)
      || (bounds.Some? && l.cmds[i] == FitBounds(bounds.value))
    ensures '-' in key ==> |l.cmds| >= 2 && l.cmds[|l.cmds| - 1] == DefaultView(env.defaults) && Count(l.cmds, IsSetView) == 1
    ensures l.sync.Some? ==>
      var s := l.sync.value;
      && !s.settingFromScope && !s.settingFromLeaflet && !s.mapReady && !s.readyResolved
      && (s.urlBridge <==> IsTrue(s.center.allowUrlHashCenter))
      && (s.locateFallback <==> IsTrue(s.center.autoDiscover))
      && s.urlCenterHash == (if s.urlBridge then ExtractCenterFromUrl(env, search, s.center.allowUrlHashCenter) else None)
      && Count(l.cmds, IsSetView) == 0
      // the model is settled: explicit coordinates, an auto-discovery flag, or filled from the fitted map
      && ((IsDefined(s.center.lat) && IsDefined(s.center.lng)) || IsDefined(s.center.autoDiscover))
    ensures l.sync.Some? && ShouldInitializeMapWithBounds(env, bounds, CenterOrEmpty(scopeCenter)) ==>
      var s := l.sync.value;
      && |l.cmds| >= 1 && l.cmds[|l.cmds| - 1] == FitBounds(bounds.value)
      && s.view == fitted
      && s.center.lat == Num(fitted.lat) && s.center.lng == Num(fitted.lng) && s.center.zoom == Num(fitted.zoom)
      && s.center.autoDiscover == Bool(false)
      && !s.urlBridge && !s.locateFallback && s.urlCenterHash.None?
    ensures l.sync.Some? && !ShouldInitializeMapWithBounds(env, bounds, CenterOrEmpty(scopeCenter)) ==>
      var c := CenterOrEmpty(scopeCenter);
      var s := l.sync.value;
      && s.view == view
      && (forall i | 0 <= i < |l.cmds| :: !l.cmds[i].FitBounds?)
      && ((IsDefined(c.lat) && IsDefined(c.lng)) || IsDefined(c.autoDiscover) ==> s.center == c)
      && (!(IsDefined(c.lat) && IsDefined(c.lng)) && !IsDefined(c.autoDiscover) ==> s.center == DefaultCenter(env.defaults))
  {
    var model := CenterOrEmpty(scopeCenter);
    var cmds := LinkCommands(env, key, bounds, scopeCenter);
    if '-' in key then
      Linked(None, cmds)
    else if ShouldInitializeMapWithBounds(env, bounds, model) then
      var filled := model.(lat := Num(fitted.lat), lng := Num(fitted.lng), zoom := Num(fitted.zoom),
                           autoDiscover := Bool(false));
      Linked(Some(Install(env, filled, fitted, search)), cmds)
    else if !(IsDefined(model.lat) && IsDefined(model.lng)) && !IsDefined(model.autoDiscover) then
      Linked(Some(Install(env, DefaultCenter(env.defaults), view, search)), cmds)
    else
      Linked(Some(Install(env, model, view, search)), cmds)
  }

  /** What the link function issues before any listener runs: the missing
      centre error first, then either the key error and the default view, or
      the fit to the scope's bounds when the map starts from them, or nothing.
      Each error is logged once, and only when its condition holds. */
  function LinkCommands(env: Env, key: string, bounds: Option<Bounds>, scopeCenter: Option<Center>): (cmds: seq<Command>)
    ensures scopeCenter.None? <==> |cmds| >= 1 && cmds[0] == LogError(CenterUndefined)
    ensures '-' in key <==> LogError(DashInKeyName) in cmds
    ensures Count(cmds, IsLogError) == (if scopeCenter.None? then 1 else 0) + (if '-' in key then 1 else 0)
    ensures forall i | 0 <= i < |cmds| ::
      || cmds[i].LogError?
      || cmds[i] == DefaultView(env.defaults)
      || (bounds.Some? && cmds[i] == FitBounds(bounds.value))
    ensures Count(cmds, IsSetView) == (if '-' in key then 1 else 0)
    ensures '-' in key ==> |cmds| >= 2 && cmds[|cmds| - 1] == DefaultView(env.defaults)
    ensures '-' !in key && ShouldInitializeMapWithBounds(env, bounds, CenterOrEmpty(scopeCenter)) ==>
      |cmds| >= 1 && cmds[|cmds| - 1] == FitBounds(bounds.value)
    ensures !('-' !in key && ShouldInitializeMapWithBounds(env, bounds, CenterOrEmpty(scopeCenter))) ==>
      forall i | 0 <= i < |cmds| :: !cmds[i].FitBounds?
  {
    var missing := if scopeCenter.None? then [LogError(CenterUndefined)] else [];
    var rest :=
      if '-' in key then [LogError(DashInKeyName), DefaultView(env.defaults)]
      else if ShouldInitializeMapWithBounds(env, bounds, CenterOrEmpty(scopeCenter)) then [FitBounds(bounds.value)]
      else [];
    CountAppend(missing, rest, IsLogError);
    CountAppend(missing, rest, IsSetView);
    missing + rest
  }

  /** The scope's centre after a missing one has been replaced by `{}`. */
  function CenterOrEmpty(scopeCenter: Option<Center>): Center {
    if scopeCenter.Some? then scopeCenter.value else Empty
  }

  /** Link fits the map to the bounds exactly when the key is usable, the
      bounds are valid and the scope's centre is undefined or empty. */
  lemma BoundsOnlyForEmptyCenter(env: Env, key: string, bounds: Option<Bounds>, scopeCenter: Option<Center>,
                                 search: map<string, string>, view: View, fitted: View)
    ensures var l := Link(env, key, bounds, scopeCenter, search, view, fitted);
      (exists i | 0 <= i < |l.cmds| :: l.cmds[i].FitBounds?) <==>
        && '-' !in key
        && bounds.Some? && env.isValidBounds(bounds.value)
        && (scopeCenter.None? || scopeCenter.value == Empty)
  {
    var l := Link(env, key, bounds, scopeCenter, search, view, fitted);
    if l.sync.Some? && ShouldInitializeMapWithBounds(env, bounds, CenterOrEmpty(scopeCenter)) {
      assert l.cmds[|l.cmds| - 1].FitBounds?;
    }
  }
}

=== FILE: projector.dfy ===
/** Model to view: the deep `$watch` on the scope's `center`. */
module Projector {
  import opened JsValues
  import opened CenterState
  import opened AutoLocate

  /** What the watch does with the centre it looks at. */
  datatype Reaction = Reject | Discover | Move

  /** An auto-discovering centre is always accepted; otherwise the centre
      must be valid to be moved to. */
  function Classify(env: Env, c: Center): (r: Reaction)
    ensures r == Discover <==> IsTrue(c.autoDiscover)
    ensures r == Move <==> env.isValidCenter(c) && !IsTrue(c.autoDiscover)
  {
    if !env.isValidCenter(c) && !IsTrue(c.autoDiscover) then Reject
    else if IsTrue(c.autoDiscover) then Discover
    else Move
  }

  /** The watch listener's reaction to the centre `s.center`, once any URL
      centre has been applied: an invalid centre only warns, an
      auto-discovering one issues the locate commands, and a valid one is
      moved to unless the ready map already shows it, the move being guarded
      by `settingFromScope` until the scheduled tick. Only that guard can
      change. */
  function React(env: Env, s: State): (o: Outcome)
    ensures Disciplined(s, o) && Count(o.cmds, IsResolveReady) == 0
    ensures o.state == s.(settingFromScope := o.state.settingFromScope)
    ensures Classify(env, s.center) == Reject ==>
      o.cmds == [LogWarn(InvalidCenter)] && o.state == s
    ensures Classify(env, s.center) == Discover ==>
      o.cmds == LocateCommands(env.defaults, s.center) && o.state == s
    ensures Classify(env, s.center) == Move && s.mapReady && env.isSameCenterOnMap(s.center, s.view) ==>
      o.cmds == [] && o.state == s
    ensures Classify(env, s.center) == Move && !(s.mapReady && env.isSameCenterOnMap(s.center, s.view)) ==>
      o.cmds == [MoveTo(s.center), NotifyBounds, ScheduleTick(FromScope)] && o.state.settingFromScope
  {
    match Classify(env, s.center)
    case Reject => Outcome(s, [LogWarn(InvalidCenter)])
    case Discover => Outcome(s, LocateCommands(env.defaults, s.center))
    case Move =>
      if s.mapReady && env.isSameCenterOnMap(s.center, s.view) then Outcome(s, [])
      else Outcome(s.(settingFromScope := true), [MoveTo(s.center), NotifyBounds, ScheduleTick(FromScope)])
  }

  /** The watch listener. While a write from the map is settling it does
      nothing at all. Otherwise a pending URL centre replaces the model and is
      consumed in the same step, and the listener reacts to the resulting
      centre. */
  function OnCenterChange(env: Env, s: State): (o: Outcome)
    ensures o.state.readyResolved == s.readyResolved && o.state.settingFromLeaflet == s.settingFromLeaflet
    ensures Disciplined(s, o) && Count(o.cmds, IsResolveReady) == 0
    ensures s.settingFromLeaflet ==> o == Outcome(s, [])
    ensures !s.settingFromLeaflet ==> o.state.urlCenterHash.None?
    ensures !s.settingFromLeaflet ==>
      o.state.center == (if s.urlCenterHash.Some? then s.urlCenterHash.value else s.center)
    ensures !s.settingFromLeaflet ==>
      var consumed := s.(center := if s.urlCenterHash.Some? then s.urlCenterHash.value else s.center,
                         urlCenterHash := None);
      o == React(env, consumed)
  {
    if s.settingFromLeaflet then Outcome(s, [])
    else
      var c := if s.urlCenterHash.Some? then s.urlCenterHash.value else s.center;
      React(env, s.(center := c, urlCenterHash := None))
  }
}

=== FILE: reflector.dfy ===
/** View to model: the `moveend`, `whenReady` and `$timeout` callbacks. */
module Reflector {
  import opened JsValues
  import opened CenterState

  /** The model after the map's position is copied into it: the view's
      coordinates and zoom, auto-discovery switched off, the URL flag kept. */
  function Reflect(c: Center, v: View): (r: Center)
    ensures r.lat == Num(v.lat) && r.lng == Num(v.lng) && r.zoom == Num(v.zoom)
    ensures r.autoDiscover == Bool(false)
    ensures r.allowUrlHashCenter == c.allowUrlHashCenter
  {
    c.(lat := Num(v.lat), lng := Num(v.lng), zoom := Num(v.zoom), autoDiscover := Bool(false))
  }

  /** A move is written back unless the model already shows the map's
      position or it is the echo of a move the model itself requested. */
  predicate WritesBack(env: Env, s: State, v: View) {
    !env.isSameCenterOnMap(s.center, v) && !s.settingFromScope
  }

  /** What every `moveend` emits first: the ready resolution when it is the
      first one, and the URL notification when URL centring is on. */
  function Announce(s: State): (cmds: seq<Command>)
    ensures Count(cmds, IsResolveReady) == (if s.readyResolved then 0 else 1)
    ensures NotifyUrlHash in cmds <==> IsTrue(s.center.allowUrlHashCenter)
    ensures Count(cmds, IsSetView) == 0 && Count(cmds, IsLocate) == 0 && Count(cmds, IsNotifyBounds) == 0
    ensures ScheduleTick(FromLeaflet) !in cmds
    ensures forall i | 0 <= i < |cmds| :: cmds[i] == ResolveReady || cmds[i] == NotifyUrlHash
    ensures |cmds| == (if s.readyResolved then 0 else 1) + (if IsTrue(s.center.allowUrlHashCenter) then 1 else 0)
  {
    (if s.readyResolved then [] else [ResolveReady])
      + (if IsTrue(s.center.allowUrlHashCenter) then [NotifyUrlHash] else [])
  }

  /** The only commands a `moveend` issues: the ready resolution, the URL and
      bounds notifications, and the tick that lowers the leaflet guard. */
  predicate MoveEndCommand(c: Command) {
    c == ResolveReady || c == NotifyUrlHash || c == NotifyBounds || c == ScheduleTick(FromLeaflet)
  }

  /** Two runs of `moveend` commands make one. */
  lemma MoveEndCommandsAppend(a: seq<Command>, b: seq<Command>)
    requires forall i | 0 <= i < |a| :: MoveEndCommand(a[i])
    requires forall i | 0 <= i < |b| :: MoveEndCommand(b[i])
    ensures forall i | 0 <= i < |a + b| :: MoveEndCommand((a + b)[i])
  {
  }

  /** The `moveend` listener, after the map has come to rest at `v`. It
      resolves the ready signal (only the first resolution is observable),
      tells the URL peer when URL centring is on, and writes the position back
      into the model under the `settingFromLeaflet` guard when it must. It
      never moves the map. */
  function OnMoveEnd(env: Env, s: State, v: View): (o: Outcome)
    ensures Disciplined(s, o)
    ensures o.state.view == v && o.state.readyResolved
    ensures Count(o.cmds, IsResolveReady) == (if s.readyResolved then 0 else 1)
    ensures NotifyUrlHash in o.cmds <==> IsTrue(s.center.allowUrlHashCenter)
    ensures Count(o.cmds, IsSetView) == 0 && Count(o.cmds, IsLocate) == 0
    ensures forall i | 0 <= i < |o.cmds| :: MoveEndCommand(o.cmds[i])
    ensures o.state.settingFromScope == s.settingFromScope && o.state.mapReady == s.mapReady
    ensures o.state.urlCenterHash == s.urlCenterHash
    ensures o.state.urlBridge == s.urlBridge && o.state.locateFallback == s.locateFallback
    ensures !WritesBack(env, s, v) ==>
      && o.state.center == s.center
      && o.state.settingFromLeaflet == s.settingFromLeaflet
      && o.cmds == Announce(s)
    ensures WritesBack(env, s, v) ==>
      && o.state.center == Reflect(s.center, v)
      && o.state.settingFromLeaflet
      && o.cmds == Announce(s) + [NotifyBounds, ScheduleTick(FromLeaflet)]
  {
    if WritesBack(env, s, v) then WriteBack(s, v) else Outcome(s.(view := v, readyResolved := true), Announce(s))
  }

  /** The write-back branch of `moveend`: the announcements, then the model
      copy under the leaflet guard, one bounds notification and the tick that
      will clear the guard. */
  function WriteBack(s: State, v: View): (o: Outcome)
    ensures o.state == s.(view := v, readyResolved := true, center := Reflect(s.center, v), settingFromLeaflet := true)
    ensures Count(o.cmds, IsResolveReady) == (if s.readyResolved then 0 else 1)
    ensures NotifyUrlHash in o.cmds <==> IsTrue(s.center.allowUrlHashCenter)
    ensures Count(o.cmds, IsSetView) == 0 && Count(o.cmds, IsLocate) == 0
    ensures Count(o.cmds, IsNotifyBounds) == 1
    ensures o.cmds == Announce(s) + [NotifyBounds, ScheduleTick(FromLeaflet)]
    ensures forall i | 0 <= i < |o.cmds| :: MoveEndCommand(o.cmds[i])
  {
    var first := Announce(s);
    var tail := WriteBackTail();
    CountAppend(first, tail, IsResolveReady);
    CountAppend(first, tail, IsSetView);
    CountAppend(first, tail, IsLocate);
    CountAppend(first, tail, IsNotifyBounds);
    MoveEndCommandsAppend(first, tail);
    Outcome(s.(view := v, readyResolved := true, center := Reflect(s.center, v), settingFromLeaflet := true),
            first + tail)
  }

  /** What a write-back emits after the announcements: one bounds
      notification, then the tick that lowers the leaflet guard. */
  function WriteBackTail(): (cmds: seq<Command>)
    ensures |cmds| == 2 && cmds[1] == ScheduleTick(FromLeaflet) && NotifyUrlHash !in cmds
    ensures Count(cmds, IsResolveReady) == 0 && Count(cmds, IsSetView) == 0 && Count(cmds, IsLocate) == 0
    ensures Count(cmds, IsNotifyBounds) == 1
    ensures forall i | 0 <= i < |cmds| :: MoveEndCommand(cmds[i])
  {
    [NotifyBounds, ScheduleTick(FromLeaflet)]
  }

  /** The `whenReady` callback: the map is ready; nothing else changes. */
  function OnWhenReady(s: State): (o: Outcome)
    ensures Disciplined(s, o)
    ensures o.state.mapReady && o.cmds == []
    ensures o.state.(mapReady := s.mapReady) == s
  {
    Outcome(s.(mapReady := true), [])
  }

  /** The value of one guard flag. */
  function Guarded(s: State, g: Guard): bool {
    match g
    case FromScope => s.settingFromScope
    case FromLeaflet => s.settingFromLeaflet
  }

  /** A `$timeout` callback: it clears the guard it was scheduled for and
      touches nothing else, the other guard included. */
  function OnTick(s: State, g: Guard): (o: Outcome)
    ensures Disciplined(s, o)
    ensures o.cmds == []
    ensures !Guarded(o.state, g)
    ensures forall h: Guard | h != g :: Guarded(o.state, h) == Guarded(s, h)
    ensures o.state.(settingFromScope := s.settingFromScope, settingFromLeaflet := s.settingFromLeaflet) == s
  {
    match g
    case FromScope => Outcome(s.(settingFromScope := false), [])
    case FromLeaflet => Outcome(s.(settingFromLeaflet := false), [])
  }
}

=== FILE: synchronizer.dfy ===
/** The installed synchronizer as one state machine: every listener the link
    function registers is an event, and a trace of events is run from left
    to right, each handler running to completion before the next. */
module Synchronizer {
  import opened CenterState
  import UrlHash
  import AutoLocate
  import Projector
  import Reflector

  datatype Event =
    | ScopeWrite(center: Center)          // code outside the directive updates the fields of the scope's center record
    | CenterWatch                         // the deep watch on center fires
    | WhenReady                           // map.whenReady
    | MoveEnd(view: View)                 // the map came to rest showing view
    | LocationError                       // the geolocation request failed
    | LocationChangeSuccess(search: map<string, string>)
    | Tick(guard: Guard)                  // a $timeout callback runs

  /** The handler for one event. No handler lowers a guard but the tick for
      it, and none raises a guard without scheduling its tick; the ready
      signal is resolved by the first `moveend` and only by it; a consumed
      URL centre never comes back; the set of listeners never changes. */
  function Step(env: Env, s: State, e: Event): (o: Outcome)
    ensures Disciplined(s, o)
    ensures o.state.readyResolved == (s.readyResolved || e.MoveEnd?)
    ensures Count(o.cmds, IsResolveReady) == (if e.MoveEnd? && !s.readyResolved then 1 else 0)
    ensures s.settingFromScope && !o.state.settingFromScope ==> e == Tick(FromScope)
    ensures s.settingFromLeaflet && !o.state.settingFromLeaflet ==> e == Tick(FromLeaflet)
  {
    match e
    case ScopeWrite(c) => Outcome(s.(center := c), [])
    case CenterWatch => Projector.OnCenterChange(env, s)
    case WhenReady => Reflector.OnWhenReady(s)
    case MoveEnd(v) => Reflector.OnMoveEnd(env, s, v)
    case LocationError => AutoLocate.OnLocationError(env, s)
    case LocationChangeSuccess(search) => UrlHash.OnLocationChangeSuccess(env, s, search)
    case Tick(g) => Reflector.OnTick(s, g)
  }

  /** Runs a trace of events and collects the commands in order. A guard
      that is up stays up until a tick for it is delivered. */
  function Run(env: Env, s: State, es: seq<Event>): (o: Outcome)
    ensures s.readyResolved ==> o.state.readyResolved
    ensures s.mapReady ==> o.state.mapReady
    ensures o.state.urlBridge == s.urlBridge && o.state.locateFallback == s.locateFallback
    ensures o.state.urlCenterHash.Some? ==> o.state.urlCenterHash == s.urlCenterHash
    ensures s.settingFromScope && Tick(FromScope) !in es ==> o.state.settingFromScope
    ensures s.settingFromLeaflet && Tick(FromLeaflet) !in es ==> o.state.settingFromLeaflet
    decreases |es|
  {
    if |es| == 0 then Outcome(s, [])
    else
      var first := Step(env, s, es[0]);
      var rest := Run(env, first.state, es[1..]);
      assert Tick(FromScope) !in es ==> Tick(FromScope) !in es[1..];
      assert Tick(FromLeaflet) !in es ==> Tick(FromLeaflet) !in es[1..];
      Outcome(rest.state, first.cmds + rest.cmds)
  }

  /** Running a trace is running its first event, then the rest. */
  lemma RunCons(env: Env, s: State, e: Event, es: seq<Event>)
    ensures Run(env, s, [e] + es) ==
      var first := Step(env, s, e);
      var rest := Run(env, first.state, es);
      Outcome(rest.state, first.cmds + rest.cmds)
  {
    assert ([e] + es)[0] == e;
    assert ([e] + es)[1..] == es;
  }

  /** Running a trace of two events. */
  lemma RunPair(env: Env, s: State, e1: Event, e2: Event)
    ensures Run(env, s, [e1, e2]) ==
      var first := Step(env, s, e1);
      var second := Step(env, first.state, e2);
      Outcome(second.state, first.cmds + second.cmds)
  {
    RunCons(env, Step(env, s, e1).state, e2, []);
    RunCons(env, s, e1, [e2]);
    assert [e1] + [e2] == [e1, e2];
    assert [e2] + [] == [e2];
  }

  /** The guards whose ticks `cmds` schedule, with multiplicity. */
  function Scheduled(cmds: seq<Command>): (ticks: multiset<Guard>)
    ensures forall g: Guard :: g in ticks <==> ScheduleTick(g) in cmds
    decreases |cmds|
  {
    if |cmds| == 0 then multiset{}
    else
      var rest := Scheduled(cmds[1..]);
      assert forall c | c in cmds :: c == cmds[0] || c in cmds[1..];
      if cmds[0].ScheduleTick? then multiset{cmds[0].guard} + rest else rest
  }

  /** The synchronizer together with the `$timeout` callbacks waiting to run. */
  datatype Pending = Pending(state: State, ticks: multiset<Guard>)

  /** Every guard that is up has a tick waiting that will lower it. */
  predicate GuardsCovered(p: Pending) {
    && (p.state.settingFromScope ==> FromScope in p.ticks)
    && (p.state.settingFromLeaflet ==> FromLeaflet in p.ticks)
  }

  /** The scheduler runs only callbacks that were scheduled. */
  predicate Deliverable(p: Pending, e: Event) {
    e.Tick? ==> e.guard in p.ticks
  }

  /** One event delivered: a tick leaves the queue, new ticks join it. */
  function Deliver(env: Env, p: Pending, e: Event): Pending {
    var o := Step(env, p.state, e);
    var left := if e.Tick? then p.ticks - multiset{e.guard} else p.ticks;
    Pending(o.state, left + Scheduled(o.cmds))
  }

  /** A guard is never left up with nothing to lower it. */
  lemma DeliverKeepsGuardsCovered(env: Env, p: Pending, e: Event)
    requires GuardsCovered(p) && Deliverable(p, e)
    ensures GuardsCovered(Deliver(env, p, e))
  {
  }
}

=== FILE: traces.dfy ===
/** Properties of short event traces: no echo in either direction, one move
    per centre, one ready resolution, and the URL centre's precedence. */
module Traces {
  import opened JsValues
  import opened CenterState
  import opened Synchronizer
  import Projector
  import Reflector
  import Linking
  import UrlHash
  import AutoLocate

  /** The trace contains a `moveend`. */
  predicate HasMoveEnd(es: seq<Event>) {
    exists i | 0 <= i < |es| :: es[i].MoveEnd?
  }

  /** While a write from the map is settling, any number of watch firings
      change nothing and emit nothing, a pending URL centre included. */
  lemma {:induction false} EchoIgnoredWhileLeafletGuard(env: Env, s: State, es: seq<Event>)
    requires s.settingFromLeaflet
    requires forall i | 0 <= i < |es| :: es[i] == CenterWatch
    ensures Run(env, s, es) == Outcome(s, [])
    decreases |es|
  {
    if |es| > 0 {
      EchoIgnoredWhileLeafletGuard(env, s, es[1..]);
    }
  }

  /** While a move requested by the model is settling, however many
      `moveend`s arrive, none writes into the model, raises the leaflet guard,
      moves the map or notifies the bounds peer. */
  lemma {:induction false} MovesNotWrittenBackWhileScopeGuard(env: Env, s: State, es: seq<Event>)
    requires s.settingFromScope
    requires forall i | 0 <= i < |es| :: es[i].MoveEnd?
    ensures
      var o := Run(env, s, es);
      && o.state.center == s.center
      && o.state.settingFromLeaflet == s.settingFromLeaflet
      && o.state.settingFromScope
      && Count(o.cmds, IsSetView) == 0
      && Count(o.cmds, IsNotifyBounds) == 0
    decreases |es|
  {
    if |es| > 0 {
      var first := Step(env, s, es[0]);
      var rest := Run(env, first.state, es[1..]);
      MovesNotWrittenBackWhileScopeGuard(env, first.state, es[1..]);
      CountAppend(first.cmds, rest.cmds, IsSetView);
      CountAppend(first.cmds, rest.cmds, IsNotifyBounds);
    }
  }

  /** The ready signal is resolved by the first `moveend` of a trace and
      never again. */
  lemma {:induction false} ReadyResolvedOnce(env: Env, s: State, es: seq<Event>)
    ensures Count(Run(env, s, es).cmds, IsResolveReady) == (if !s.readyResolved && HasMoveEnd(es) then 1 else 0)
    ensures Count(Run(env, s, es).cmds, IsResolveReady) <= 1
    decreases |es|
  {
    if |es| > 0 {
      var first := Step(env, s, es[0]);
      var rest := Run(env, first.state, es[1..]);
      ReadyResolvedOnce(env, first.state, es[1..]);
      CountAppend(first.cmds, rest.cmds, IsResolveReady);
      if es[0].MoveEnd? {
        assert HasMoveEnd(es);
      } else {
        if HasMoveEnd(es) {
          var i :| 0 <= i < |es| && es[i].MoveEnd?;
          assert es[1..][i - 1].MoveEnd?;
        }
        if HasMoveEnd(es[1..]) {
          var i :| 0 <= i < |es[1..]| && es[1..][i].MoveEnd?;
          assert es[i + 1].MoveEnd?;
        }
      }
    }
  }

  /** The model moves the map once; the map's completion of that move, while
      the scope guard is up, is not written back, so the model keeps exactly
      the values it had and the bounds peer is not told twice. */
  lemma ModelMoveNotEchoed(env: Env, s: State, v: View)
    requires !s.settingFromLeaflet && s.urlCenterHash.None?
    requires Projector.Classify(env, s.center) == Projector.Move
    requires !(s.mapReady && env.isSameCenterOnMap(s.center, s.view))
    ensures
      var watch := Step(env, s, CenterWatch);
      var moved := Step(env, watch.state, MoveEnd(v));
      && watch.cmds == [MoveTo(s.center), NotifyBounds, ScheduleTick(FromScope)]
      && moved.state.center == s.center
      && moved.state.view == v
      && Count(moved.cmds, IsSetView) == 0 && Count(moved.cmds, IsNotifyBounds) == 0
      && moved.state.settingFromScope && !moved.state.settingFromLeaflet
  {
  }

  /** On a ready map, applying the same centre twice, with the map having
      come to rest on it in between, moves the map at most once: not at all
      when it already showed the centre. After the tick both guards are down. */
  lemma SameCentreTwiceMovesOnce(env: Env, s: State, v: View)
    requires !s.settingFromLeaflet && s.urlCenterHash.None? && s.mapReady
    requires Projector.Classify(env, s.center) == Projector.Move
    requires env.isSameCenterOnMap(s.center, v)
    ensures
      var first := Step(env, s, CenterWatch);
      var moved := Step(env, first.state, MoveEnd(v));
      var tick := Step(env, moved.state, Tick(FromScope));
      var second := Step(env, tick.state, CenterWatch);
      && Count(first.cmds, IsSetView) == (if env.isSameCenterOnMap(s.center, s.view) then 0 else 1)
      && Count(moved.cmds, IsSetView) == 0
      && second.cmds == []
      && second.state.center == s.center
      && !second.state.settingFromScope && !second.state.settingFromLeaflet
  {
  }

  /** No duplicate move: once the ready map shows the model's valid centre,
      a watch firing emits nothing and changes nothing. */
  lemma SettledCentreIsSilent(env: Env, s: State)
    requires !s.settingFromLeaflet && s.urlCenterHash.None? && s.mapReady
    requires Projector.Classify(env, s.center) == Projector.Move
    requires env.isSameCenterOnMap(s.center, s.view)
    ensures Step(env, s, CenterWatch) == Outcome(s, [])
  {
  }

  /** A move made on the map is written into the model once and is not
      echoed back to the map: the watch it triggers is suppressed, keeping
      even a pending URL centre, and the tick then lowers the leaflet guard. */
  lemma MapMoveNotEchoed(env: Env, s: State, v: View)
    requires !s.settingFromScope && !s.settingFromLeaflet
    requires !env.isSameCenterOnMap(s.center, v)
    ensures
      var moved := Step(env, s, MoveEnd(v));
      var echo := Step(env, moved.state, CenterWatch);
      var tick := Step(env, echo.state, Tick(FromLeaflet));
      && moved.state.center == Reflector.Reflect(s.center, v)
      && Count(moved.cmds, IsSetView) == 0 && Count(moved.cmds, IsNotifyBounds) == 1
      && echo == Outcome(moved.state, [])
      && echo.state.urlCenterHash == s.urlCenterHash
      && tick.cmds == [] && tick.state == moved.state.(settingFromLeaflet := false)
  {
  }

  /** Navigating to a URL whose `c` parameter holds a valid centre the map
      does not show writes it into the model, and the watch firing that
      follows moves the map there under the scope guard. */
  lemma UrlNavigationMovesMap(env: Env, s: State, search: map<string, string>)
    requires s.urlBridge && !s.settingFromLeaflet && s.urlCenterHash.None?
    requires !IsTrue(s.center.autoDiscover)
    requires var u := UrlHash.ExtractCenterFromUrl(env, search, s.center.allowUrlHashCenter);
      && u.Some? && !env.isSameCenterOnMap(u.value, s.view)
      && var c := s.center.(lat := u.value.lat, lng := u.value.lng, zoom := u.value.zoom);
      && env.isValidCenter(c)
      && !(s.mapReady && env.isSameCenterOnMap(c, s.view))
    ensures
      var u := UrlHash.ExtractCenterFromUrl(env, search, s.center.allowUrlHashCenter).value;
      var nav := Step(env, s, LocationChangeSuccess(search));
      var watch := Step(env, nav.state, CenterWatch);
      && nav.cmds == []
      && watch.cmds == [SetView(u.lat, u.lng, u.zoom), NotifyBounds, ScheduleTick(FromScope)]
      && watch.state.center.lat == u.lat && watch.state.center.lng == u.lng && watch.state.center.zoom == u.zoom
      && watch.state.settingFromScope
  {
  }

  /** With URL centring allowed at link time and a well-formed `c` parameter,
      the first watch firing moves the map to the URL's centre, not to the
      model's, and the URL centre is then spent. */
  lemma UrlCentreWinsFirstWatch(env: Env, key: string, model: Center, search: map<string, string>,
                                lat: string, lng: string, zoom: string, view: View, fitted: View)
    requires '-' !in key
    requires IsTrue(model.allowUrlHashCenter) && IsDefined(model.lat) && IsDefined(model.lng)
    requires UrlHash.FieldSeparator !in lat && UrlHash.FieldSeparator !in lng && UrlHash.FieldSeparator !in zoom
    requires UrlHash.CenterParam in search && search[UrlHash.CenterParam] == UrlHash.Encode(lat, lng, zoom)
    requires env.isValidCenter(Center(FloatResult(env.parseFloat(lat)), FloatResult(env.parseFloat(lng)),
                                      IntResult(env.parseInt(zoom)), Undefined, model.allowUrlHashCenter))
    ensures
      var l := Linking.Link(env, key, None, Some(model), search, view, fitted);
      var u := Center(FloatResult(env.parseFloat(lat)), FloatResult(env.parseFloat(lng)),
                      IntResult(env.parseInt(zoom)), Undefined, model.allowUrlHashCenter);
      && l.sync.Some?
      && l.sync.value.urlCenterHash == Some(u)
      && var o := Run(env, l.sync.value, [CenterWatch]);
      && o.cmds == [MoveTo(u), NotifyBounds, ScheduleTick(FromScope)]
      && o.state.center == u
      && o.state.urlCenterHash.None?
  {
    UrlHash.UrlRoundTrip(env, search, lat, lng, zoom, model.allowUrlHashCenter);
    var l := Linking.Link(env, key, None, Some(model), search, view, fitted);
    RunCons(env, l.sync.value, CenterWatch, []);
    assert [CenterWatch] + [] == [CenterWatch];
  }

  /** The example of a URL `c=12.5:45.25:7` over a model at (0, 0): the first
      move goes to (12.5, 45.25) at zoom 7. */
  lemma UrlPrecedenceExample(env: Env, view: View)
    requires env.parseFloat("12.5") == Some(12.5) && env.parseFloat("45.25") == Some(45.25)
    requires env.parseInt("7") == Some(7)
    requires env.isValidCenter(Center(Num(12.5), Num(45.25), Num(7.0), Undefined, Bool(true)))
    ensures
      var model := Center(Num(0.0), Num(0.0), Undefined, Undefined, Bool(true));
      var l := Linking.Link(env, "center", None, Some(model), map["c" := "12.5:45.25:7"], view, view);
      && l.sync.Some?
      && Run(env, l.sync.value, [CenterWatch]).cmds[0] == SetView(Num(12.5), Num(45.25), Num(7.0))
  {
    var model := Center(Num(0.0), Num(0.0), Undefined, Undefined, Bool(true));
    assert UrlHash.Encode("12.5", "45.25", "7") == "12.5:45.25:7";
    UrlCentreWinsFirstWatch(env, "center", model, map["c" := "12.5:45.25:7"], "12.5", "45.25", "7", view, view);
  }

  /** An auto-discovering model with no zoom and no valid explicit centre:
      the watch first shows the default centre, then asks for the location;
      when that fails the map settles on the default centre again. */
  lemma AutoDiscoverFallsBackToDefault(env: Env, key: string, view: View, fitted: View)
    requires '-' !in key
    requires !env.isValidCenter(Center(Undefined, Undefined, Undefined, Bool(true), Undefined))
    ensures
      var model := Center(Undefined, Undefined, Undefined, Bool(true), Undefined);
      var l := Linking.Link(env, key, None, Some(model), map[], view, fitted);
      && l.sync.Some?
      && Run(env, l.sync.value, [CenterWatch, LocationError]).cmds ==
           [DefaultView(env.defaults), Locate(true, AutoLocate.LocateMaxZoom(env.defaults, model)),
            LogWarn(GeolocationUnauthorized), DefaultView(env.defaults), NotifyBounds]
  {
    var model := Center(Undefined, Undefined, Undefined, Bool(true), Undefined);
    var l := Linking.Link(env, key, None, Some(model), map[], view, fitted);
    var s := l.sync.value;
    RunPair(env, s, CenterWatch, LocationError);
  }
}

=== FILE: url_hash.dfy ===
/** The URL hash bridge: reading a centre from the `c=lat:lng:zoom` search
    parameter, and the `$locationChangeSuccess` handler that applies it. */
module UrlHash {
  import opened JsValues
  import opened CenterState

  /** The name of the search parameter that carries the centre. */
  const CenterParam := "c"
  const FieldSeparator := ':'

  /** JavaScript's `s.split(sep)` for a one-character separator: the pieces
      between separators, one more piece than there are separators. */
  function Split(s: string, sep: char): (parts: seq<string>)
    ensures |parts| == multiset(s)[sep] + 1
    ensures forall i | 0 <= i < |parts| :: sep !in parts[i]
    decreases |s|
  {
    if |s| == 0 then [""]
    else
      var rest := Split(s[1..], sep);
      assert s == [s[0]] + s[1..];
      assert multiset(s) == multiset{s[0]} + multiset(s[1..]);
      if s[0] == sep then [""] + rest
      else [[s[0]] + rest[0]] + rest[1..]
  }

  /** `parts.join(sep)`. */
  function Join(parts: seq<string>, sep: char): string
    requires |parts| >= 1
    decreases |parts|
  {
    if |parts| == 1 then parts[0] else parts[0] + [sep] + Join(parts[1..], sep)
  }

  /** Extending the first piece extends the joined string at the front. */
  lemma JoinExtendFirst(c: char, parts: seq<string>, sep: char)
    requires |parts| >= 1
    ensures Join([[c] + parts[0]] + parts[1..], sep) == [c] + Join(parts, sep)
  {
    var longer := [[c] + parts[0]] + parts[1..];
    if |parts| > 1 {
      assert longer[1..] == parts[1..];
    }
  }

  /** An empty first piece puts a separator at the front. */
  lemma JoinEmptyFirst(parts: seq<string>, sep: char)
    requires |parts| >= 1
    ensures Join([""] + parts, sep) == [sep] + Join(parts, sep)
  {
    assert ([""] + parts)[1..] == parts;
  }

  /** One step of the round trip: if joining undoes splitting on the tail,
      it does so on the whole string. */
  lemma JoinSplitStep(s: string, sep: char)
    requires |s| > 0
    requires Join(Split(s[1..], sep), sep) == s[1..]
    ensures Join(Split(s, sep), sep) == s
  {
    var rest := Split(s[1..], sep);
    if s[0] == sep {
      JoinEmptyFirst(rest, sep);
    } else {
      JoinExtendFirst(s[0], rest, sep);
    }
    assert s == [s[0]] + s[1..];
  }

  /** Joining the pieces of a split gives back the string. */
  lemma {:induction false} JoinSplit(s: string, sep: char)
    ensures Join(Split(s, sep), sep) == s
    decreases |s|
  {
    if |s| > 0 {
      JoinSplit(s[1..], sep);
      JoinSplitStep(s, sep);
    }
  }

  /** Splitting a separator-free string gives the string alone. */
  lemma {:induction false} SplitPlain(s: string, sep: char)
    requires sep !in s
    ensures Split(s, sep) == [s]
    decreases |s|
  {
    if |s| > 0 {
      SplitPlain(s[1..], sep);
      assert [s[0]] + s[1..] == s;
    }
  }

  /** A separator-free head is split off as the first piece. */
  lemma {:induction false} SplitCons(head: string, sep: char, tail: string)
    requires sep !in head
    ensures Split(head + [sep] + tail, sep) == [head] + Split(tail, sep)
    decreases |head|
  {
    var s := head + [sep] + tail;
    if |head| == 0 {
      assert s == [sep] + tail;
      assert s[1..] == tail;
    } else {
      assert s[1..] == head[1..] + [sep] + tail;
      SplitCons(head[1..], sep, tail);
      assert [head[0]] + head[1..] == head;
    }
  }

  /** Splitting undoes joining separator-free pieces. */
  lemma {:induction false} SplitJoin(parts: seq<string>, sep: char)
    requires |parts| >= 1
    requires forall i | 0 <= i < |parts| :: sep !in parts[i]
    ensures Split(Join(parts, sep), sep) == parts
    decreases |parts|
  {
    if |parts| == 1 {
      SplitPlain(parts[0], sep);
    } else {
      SplitJoin(parts[1..], sep);
      SplitCons(parts[0], sep, Join(parts[1..], sep));
      assert [parts[0]] + parts[1..] == parts;
    }
  }

  /** `extractCenterFromUrl`: a centre when the `c` parameter is present and
      splits on ':' into exactly three fields; lat and lng parsed as floats,
      zoom as a base-10 integer, and the model's `allowUrlHashCenter` copied.
      No other key is set. */
  function ExtractCenterFromUrl(env: Env, search: map<string, string>, allow: Js): (r: Option<Center>)
    ensures r.Some? <==> CenterParam in search && multiset(search[CenterParam])[FieldSeparator] == 2
    ensures r.Some? ==>
      var fields := Split(search[CenterParam], FieldSeparator);
      && r.value.lat == FloatResult(env.parseFloat(fields[0]))
      && r.value.lng == FloatResult(env.parseFloat(fields[1]))
      && r.value.zoom == IntResult(env.parseInt(fields[2]))
      && r.value.allowUrlHashCenter == allow
      && r.value.autoDiscover == Undefined
  {
    if CenterParam in search then
      var fields := Split(search[CenterParam], FieldSeparator);
      if |fields| == 3 then
        Some(Center(
          lat := FloatResult(env.parseFloat(fields[0])),
          lng := FloatResult(env.parseFloat(fields[1])),
          zoom := IntResult(env.parseInt(fields[2])),
          autoDiscover := Undefined,
          allowUrlHashCenter := allow))
      else None
    else None
  }

  /** The parameter value that encodes three fields. */
  function Encode(lat: string, lng: string, zoom: string): string {
    Join([lat, lng, zoom], FieldSeparator)
  }

  /** Round trip: three separator-free fields written as `c=lat:lng:zoom`
      are read back as exactly those fields. */
  lemma UrlRoundTrip(env: Env, search: map<string, string>, lat: string, lng: string, zoom: string, allow: Js)
    requires FieldSeparator !in lat && FieldSeparator !in lng && FieldSeparator !in zoom
    requires CenterParam in search && search[CenterParam] == Encode(lat, lng, zoom)
    ensures ExtractCenterFromUrl(env, search, allow) == Some(Center(
      FloatResult(env.parseFloat(lat)), FloatResult(env.parseFloat(lng)),
      IntResult(env.parseInt(zoom)), Undefined, allow))
  {
    SplitJoin([lat, lng, zoom], FieldSeparator);
  }

  /** The `$locationChangeSuccess` listener, which exists only when the model
      allowed URL centring at link time. A URL centre that differs from what
      the map shows is written into the model's lat, lng and zoom; the
      `center` watch then reacts to it, so nothing is emitted here. */
  function OnLocationChangeSuccess(env: Env, s: State, search: map<string, string>): (o: Outcome)
    ensures o.cmds == []
    ensures !s.urlBridge ==> o.state == s
    ensures o.state == s.(center := o.state.center)
    ensures o.state.center.autoDiscover == s.center.autoDiscover
    ensures o.state.center.allowUrlHashCenter == s.center.allowUrlHashCenter
    ensures var u := ExtractCenterFromUrl(env, search, s.center.allowUrlHashCenter);
      s.urlBridge && u.Some? && !env.isSameCenterOnMap(u.value, s.view) ==>
        o.state.center == s.center.(lat := u.value.lat, lng := u.value.lng, zoom := u.value.zoom)
    ensures o.state.center != s.center ==>
      var u := ExtractCenterFromUrl(env, search, s.center.allowUrlHashCenter);
      && s.urlBridge && u.Some? && !env.isSameCenterOnMap(u.value, s.view)
      && o.state.center.lat == u.value.lat
      && o.state.center.lng == u.value.lng
      && o.state.center.zoom == u.value.zoom
  {
    if !s.urlBridge then Outcome(s, [])
    else
      var u := ExtractCenterFromUrl(env, search, s.center.allowUrlHashCenter);
      if u.Some? && !env.isSameCenterOnMap(u.value, s.view) then
        Outcome(s.(center := s.center.(lat := u.value.lat, lng := u.value.lng, zoom := u.value.zoom,
                                       allowUrlHashCenter := s.center.allowUrlHashCenter)), [])
      else Outcome(s, [])
  }
}
